=== FILE: README.md ===
# Vizaur EDA tool — a Dafny model of its decision logic

Vizaur is a Django application that takes an uploaded CSV or Excel file,
profiles it with pandas and shows the profile in a tabbed page. This project
models the parts of it that make decisions:

- **The dataset analyzer** (`eda_app/utils/data_analyzer.py`), in
  `analyzer.dfy`. A pandas frame is a `Table`: a row count plus ordered columns,
  each with a name, a storage dtype and one optional cell per row. The model
  covers the choice of parser by file suffix, the column classifier
  (numeric / date / categorical / text, in that precedence), the missing count
  and the rounded missing percentage, and the shape summary. Every exception
  that `load_data`, `detect_column_types` and `get_basic_info` can raise is an
  error value: a zero-row frame at the ratio test, a duplicated column name, a
  frame that was never loaded (for both `detect_column_types` and
  `get_basic_info`), and a wrapped parser error.
- **Upload acceptance and the dataset registry** (`eda_app/views.py` with the
  `Dataset` record of `eda_app/models.py`), in `views.dfy`. The registry is a
  sequence of `Dataset` rows. An upload is a pure transition on it. The list
  view is a newest-first sort, shown to be a sorted permutation.
- **The tab state machine** (`eda_app/static/js/tabs-manager.js`), in
  `tabs.dfy`. Its state is the active tab, the set of loaded tabs and the
  dataset id. A fetch is reduced to its outcome, which `loadTabContent` always
  catches. The file also has two display classifiers: the correlation cell
  colour and the pair strength/direction badge.
- **The overview page entry point** (`eda_app/static/js/overview.js`), in
  `overview.dfy`: the guard on the dataset id, and the statistics reload when
  another column is picked.

`wrappers.dfy` holds `Option` and `Result`. `strings.dfy` holds Python's
`endswith` and an ASCII `lower`.

Parameters stand in for everything outside the program. The pandas parsers are
a function from parser to `Result`. `default_storage.save` is a function from the
requested name to the stored name. `timezone.now()` is an integer. The network
is a `FetchOutcome`. The page's globals are `JsValue`s.

Two behaviours of the code worth stating plainly:

- A non-numeric, non-date column of a zero-row frame raises
  `ZeroDivisionError` at data_analyzer.py:28: `nunique()` is divided by
  `len(df)` before `len > 20` is evaluated. So `Classify` returns
  `Failure(ZeroDivision)` for such a column. Numeric and date columns never
  reach that division. For them the missing percentage divides a numpy integer
  by zero, which gives NaN (`NotANumber`).
- The loader is a plain `read_csv` / `read_excel` dispatch on a case-sensitive
  suffix (data_analyzer.py:13-16), and that is what `SelectParser` and `Load`
  model.

Two properties that cross files:

- The upload check lower-cases the name (views.py:19). The loader's suffix
  test is case-sensitive (data_analyzer.py:13-15). So `X.CSV` is accepted and
  stored, but no parser runs: the analyzer keeps `df = None` and
  classification and the basic summary then fail
  (`Views.UploadCheckIsLaxerThanLoader`).
- `handleColumnSelection` reloads the statistics tab, but `loadStatistics` is
  called without the selected column. The reload is therefore the same
  whichever column was picked (`Overview.ReloadIgnoresSelectedColumn`).

## Model

| member | source | states |
|---|---|---|
| `DataAnalyzer.SelectParser` | eda_app/utils/data_analyzer.py:13-16 | a `.csv` suffix selects the CSV parser; otherwise `.xls` or `.xlsx` selects the spreadsheet parser; any other suffix, upper-case ones included, selects none |
| `DataAnalyzer.Load` | eda_app/utils/data_analyzer.py:6-18 | with no parser selected, the analyzer keeps no frame and raises nothing; when the selected parser succeeds, the analyzer holds exactly that frame and its path; a parser error becomes exactly one `LoadFailed` with the loader's prefix, and no frame is assigned |
| `DataAnalyzer.UpperCaseSuffixLoadsNothing` | eda_app/utils/data_analyzer.py:13-16 | `datasets/X.CSV` selects no parser and loads to an analyzer without a frame |
| `DataAnalyzer.MissingCount` | eda_app/utils/data_analyzer.py:36 | the count is exactly the number of null cells; it never exceeds the column length, is zero iff no cell is null, and equals the length iff every cell is null |
| `DataAnalyzer.RoundHundredths` | eda_app/utils/data_analyzer.py:37 | the result is the hundredths value nearest to `num / den * 100`, within half a hundredth, and a tie goes to the even neighbour |
| `DataAnalyzer.MissingPercent` | eda_app/utils/data_analyzer.py:37 | NaN iff the frame has no rows; otherwise the hundredths value nearest to `missing / rows * 100`, within half a hundredth, a tie going to the even neighbour; between 0 and 100.00 when the count is at most the row count, exactly 0 with no nulls, exactly 100.00 with only nulls |
| `DataAnalyzer.HundredthsBounds` | eda_app/utils/data_analyzer.py:37 | a rounded share of the rows lies in 0..10000 hundredths and reaches the ends exactly |
| `DataAnalyzer.Distinct` | eda_app/utils/data_analyzer.py:28 | the set `nunique()` counts: it holds every non-null cell value and nothing that is not one |
| `DataAnalyzer.FewDistinctExact` | eda_app/utils/data_analyzer.py:28 | `distinct / rows < 0.05 and rows > 20` holds iff `20 * distinct < rows and rows > 20` |
| `DataAnalyzer.Classify` | eda_app/utils/data_analyzer.py:23-31 | numeric iff the dtype string is `int64` or `float64`, whatever the values; date iff not numeric and a datetime dtype; categorical iff neither and `20 * distinct < rows` and `rows > 20`; text otherwise; with zero rows, a column reaching the ratio test raises a division by zero |
| `DataAnalyzer.CategoricalBoundaries` | eda_app/utils/data_analyzer.py:28-31 | a frame of at most 20 rows never gives a categorical column, and neither does a distinct ratio of exactly 1/20, which gives text |
| `DataAnalyzer.AllEmptyColumnIsCategorical` | eda_app/utils/data_analyzer.py:28-29 | a non-numeric, non-date column with only nulls is categorical once the frame has more than 20 rows |
| `DataAnalyzer.DistinctBound` | eda_app/utils/data_analyzer.py:28-36 | distinct non-null values plus null cells never exceed the column length |
| `DataAnalyzer.InfoOf` | eda_app/utils/data_analyzer.py:33-38 | a column's entry holds its type tag, its dtype string, its null count and the rounded percentage of that count; it fails exactly when the classification raises |
| `DataAnalyzer.DetectFrom` | eda_app/utils/data_analyzer.py:22-38 | the loop from column `k` succeeds iff every remaining column has an unshared name and classifies without raising; its keys are exactly those columns' names, each mapped to that column's own entry; a failure is the exception of the first failing column from `k` on: `DuplicateColumn` for a shared name, else the division by zero |
| `DataAnalyzer.DetectColumnTypes` | eda_app/utils/data_analyzer.py:20-40 | succeeds iff column names are unique and the frame has rows or every column is numeric or date; then there is exactly one entry per column name, each computed from that column alone; a failure is the exception of the first failing column in column order, and with rows it is always a duplicated name |
| `DataAnalyzer.AllColumnsOkIff` | eda_app/utils/data_analyzer.py:22-28 | every column passes the loop body iff names are unique and no column reaches the ratio test of an empty frame |
| `DataAnalyzer.MissingFiguresInRange` | eda_app/utils/data_analyzer.py:36-37 | in a successful classification, every entry's null count is at most the row count, and its percentage is within 0..100 with rows and NaN without |
| `DataAnalyzer.AnalyzerDetect` | eda_app/utils/data_analyzer.py:8-22 | an analyzer whose frame was never assigned fails classification; otherwise it classifies its frame |
| `DataAnalyzer.GetBasicInfo` | eda_app/utils/data_analyzer.py:42-46 | the row count is the frame's, the column count equals the number of listed names, the names follow table order, and in a rectangular frame the row count is every column's length |
| `DataAnalyzer.AnalyzerBasicInfo` | eda_app/utils/data_analyzer.py:42-46 | an analyzer whose frame was never assigned fails the basic summary, as it fails classification; otherwise the summary succeeds with exactly the frame's `GetBasicInfo`: its row count, column count and column names in order |
| `DataAnalyzer.SummaryAgreesWithClassification` | eda_app/utils/data_analyzer.py:42-46 | whenever classification succeeds, its keys are exactly the summary's column names and their number is the summary's column count |
| `Views.NewDataset` | eda_app/models.py:4-11 | a new record has the given name, path and size, the current time as upload date, status `uploaded` and no row or column counts |
| `Views.HasValidExtension` | eda_app/views.py:18-19 | a name is accepted iff its lower-cased form ends in `.csv`, `.xls` or `.xlsx`; every name ending in one of them exactly is accepted |
| `Views.ExtensionTestIgnoresCase` | eda_app/views.py:18-19 | a name passes the extension check iff its lower-cased form does |
| `Views.UploadDataset` | eda_app/views.py:11-38 | the registry changes iff the request is a POST with a valid form and an accepted extension; then exactly one record is appended, holding the file's name and size and the path storage returned for `datasets/<name>`, and the response redirects with the message naming the file; otherwise nothing is saved, an unsupported extension re-renders the form with the format error, and a non-POST request or an invalid form re-renders it with no message |
| `Views.UploadCheckIsLaxerThanLoader` | eda_app/views.py:19 | every name the loader can parse passes the upload check; `datasets/X.CSV` passes it but loads no frame, so classification and the basic summary then fail |
| `Views.InsertNewestFirst` | eda_app/views.py:41 | inserting into a newest-first list keeps it newest first and adds exactly that record |
| `Views.DatasetList` | eda_app/views.py:40-42 | the list holds exactly the registered datasets, as a multiset, with upload dates never increasing |
| `Views.NewestUploadListedFirst` | eda_app/views.py:24-41 | an upload later than every registered one heads the dataset list |
| `TabsManager.EndpointOf` | eda_app/static/js/tabs-manager.js:77-95 | only `statistics`, `distributions` and `correlations` select an endpoint; any other name selects none |
| `TabsManager.LoadTabContent` | eda_app/static/js/tabs-manager.js:67-104 | a request is issued iff the tab has an endpoint, for that endpoint and the manager's dataset id; content is shown iff that request was delivered, and every other case ends in the error panel without escaping |
| `TabsManager.Init` | eda_app/static/js/tabs-manager.js:3-10 | a new manager has `general` active and as its only loaded tab, and carries the dataset id it is given |
| `TabsManager.ShowTab` | eda_app/static/js/tabs-manager.js:25-65 | showing the active tab changes nothing; showing another makes it active and adds it to the loaded set and nothing else changes; content is loaded iff the tab was not loaded before |
| `TabsManager.ShowTabIgnoresOutcome` | eda_app/static/js/tabs-manager.js:48-59 | the state after `showTab` is the same whether the fetch succeeded, failed or was impossible |
| `TabsManager.LoadedAtMostOnce` | eda_app/static/js/tabs-manager.js:48-51 | over any run of clicks each made after the previous fetch has settled, no tab's content is loaded twice; no tab already loaded is loaded again; every loaded tab ends in the loaded set, which only grows |
| `TabsManager.GeneralNeverLoaded` | eda_app/static/js/tabs-manager.js:5-6 | starting from a fresh manager, the general tab is never fetched |
| `TabsManager.CellColorOf` | eda_app/static/js/tabs-manager.js:334 | green from 0.7, blue from 0.5, yellow from 0.3, gray below, on the signed value |
| `TabsManager.CellColorMonotone` | eda_app/static/js/tabs-manager.js:334 | the colour rank grows with the value, and every negative correlation, even -1, is gray |
| `TabsManager.StrengthColorOf` | eda_app/static/js/tabs-manager.js:356 | `forte` is red, `modérée` orange, any other label yellow |
| `TabsManager.DirectionIcon` | eda_app/static/js/tabs-manager.js:357 | the arrow points up iff the direction is exactly `positive` |
| `TabsManager.LabelTestsAreExact` | eda_app/static/js/tabs-manager.js:356-357 | a differently cased or unaccented label falls to the default colour and the down arrow |
| `Overview.NewOverviewApp` | eda_app/static/js/overview.js:12-31 | a falsy dataset id stops `init` before any loader, tab manager or listener exists; otherwise the tab manager starts fresh with the app's dataset id, and a listener exists iff the page has a column selector |
| `Overview.HandleColumnSelection` | eda_app/static/js/overview.js:43-52 | nothing happens unless a non-empty column is selected while `statistics` is active; then `statistics` leaves the loaded set, every other tab keeps its membership, the statistics request is reissued through `loadTabContent('statistics')`, so content is shown iff it was delivered, and the active tab never changes |
| `Overview.ReloadIgnoresSelectedColumn` | eda_app/static/js/overview.js:50 | two different selected columns produce the same transition and the same request |
| `Overview.OnColumnChange` | eda_app/static/js/overview.js:33-41 | without a listener a change event does nothing; with one, it applies `handleColumnSelection` to the app's tab manager and changes nothing else of the app |
| `Overview.StatisticsRefetchedAfterColumnChange` | eda_app/static/js/overview.js:49-50 | after a column change, leaving the statistics tab and returning fetches the statistics again |

## Left out

- Parsing itself (`pd.read_csv`, `pd.read_excel`) is a parameter of `Load`; `memory_usage` in `get_basic_info` and `get_data_preview` (HTML rendering by pandas) are foreign pandas calls and are not modelled.
- Descriptive statistics, correlations and charts are outside the files modelled here.
- DataAnalyzer.FewDistinctExact: the ratio is taken on exact rationals. Python's float division and the float literal 0.05 could only disagree with them for frames of more than about 10^16 rows.
- DataAnalyzer.RoundHundredths: rounds the exact rational `missing / rows * 100`. Python rounds the nearest binary float, which can differ at exact half-hundredth ties.
- A NaN in a float column counts as a null cell (`None`). The model does not carry values that are not nulls but compare unequal to themselves.
- Views.ExtensionTestIgnoresCase: `str.lower` is modelled on ASCII letters only. No non-ASCII character lower-cases to a letter of the three extensions, so the accept decision is the same.
- The Django form (`DatasetUploadForm.is_valid`) is a boolean of the request. The message framework is reduced to the response's message. The `home` view is a plain render.
- Views.DatasetList: the database leaves the order of equal upload dates open; the model fixes one order (registry order) for them.
- The database id of a `Dataset` and the `__str__` method are not modelled.
- TabsManager.ShowTab: the `catch` of `showTab` (lines 61-64) is not modelled. It fires only if `querySelector` rejects a tab name containing a quote, and the page's tab names are fixed identifiers.
- The `await` points of `showTab` and `handleColumnSelection` are treated as atomic. Two clicks interleaving during a fetch are not modelled.
- TabsManager.LoadedAtMostOnce: holds only for clicks made after the previous fetch has settled. `showTab` records the tab as loaded (tabs-manager.js:50) and active (line 59) only after `await this.loadTabContent` (line 49), so a second click on the same tab while its fetch is pending passes both tests and fetches it twice.
- DataAnalyzer.DetectColumnTypes: the result is a map, so the dict's insertion order (column order) is not kept by it; the names in column order are `GetBasicInfo(t).columnNames`, and `SummaryAgreesWithClassification` proves they are exactly the map's keys.
- DOM work is not modelled: class toggling, loader/error panels beyond the `Panel` outcome, and the HTML built by the render methods.
- TabsManager.CellColorOf: the value is a real. A `null` cell, which JavaScript compares as 0, and NaN, which fails every comparison, would both be gray in the source and are not represented.
- Overview.Truthy: NaN (falsy in JavaScript) is not a `JsValue`.
- `eda_app/static/js/ajax-loader.js` (fetch, HTTP status, URL encoding), `eda_app/static/js/utils.js` (notifications, number formatting), `eda_app/urls.py`, `eda_app/forms.py` and `install.py` are not part of this model.

=== FILE: analyzer.dfy ===
/** The dataset analyzer of eda_app/utils/data_analyzer.py: loading a frame by
    file-name suffix, the per-column type classifier with its missing-value
    figures, and the shape summary.

    A pandas frame is modelled as a `Table`: a row count and an ordered
    sequence of named columns, each holding one optional cell per row. */
module DataAnalyzer {
  import opened Wrappers
  import opened Strings

  /** The storage dtype of a column, as `str(series.dtype)` prints it. */
  datatype Dtype =
    | Int64
    | Float64
      /** any dtype pandas reports as datetime64, with or without a time zone */
    | Datetime64(str: string)
      /** every other dtype: "object", "int32", "bool", "category", ...; its
          label is never "int64", "float64" or a datetime64 label, since pandas
          reports those dtypes through the constructors above */
    | Other(str: string)
  {
    function Label(): string {
      match this
      case Int64 => "int64"
      case Float64 => "float64"
      case Datetime64(l) => l
      case Other(l) => l
    }
  }

  datatype Column<V> = Column(name: string, dtype: Dtype, values: seq<Option<V>>)

  datatype Table<V> = Table(rows: nat, columns: seq<Column<V>>) {
    /** Every column holds exactly one cell per row. */
    predicate Rectangular() {
      forall i :: 0 <= i < |columns| ==> |columns[i].values| == rows
    }
  }

  /** The four semantic tags of the classifier. */
  datatype ColumnType = Numeric | Date | Categorical | Text {
    /** The tag string stored in the result. */
    function Tag(): string {
      match this
      case Numeric => "numérique"
      case Date => "date"
      case Categorical => "catégoriel"
      case Text => "texte"
    }
  }

  /** `missing_percent`: a number of hundredths, or NaN when the frame has no rows. */
  datatype Percent = Hundredths(n: nat) | NotANumber

  datatype ColumnInfo = ColumnInfo(kind: ColumnType, dtype: string, missingCount: nat, missingPercent: Percent)

  /** The exceptions the analyzer lets escape. */
  datatype AnalyzerError =
      /** `nunique() / len(df)` on a frame without rows */
    | ZeroDivision
      /** `df[col]` is a frame, not a series, when two columns share `col` */
    | DuplicateColumn(name: string)
      /** the frame was never assigned, so `self.df` is `None` */
    | NoFrame
      /** a parser exception, re-raised with the loader's prefix */
    | LoadFailed(message: string)

  // ---------------------------------------------------------------- loading

  datatype Parser = CsvParser | ExcelParser

  /** Which parser `load_data` calls for a path, if any. */
  function SelectParser(path: string): (p: Option<Parser>)
    ensures p == Some(CsvParser) <==> EndsWith(path, ".csv")
    ensures p == Some(ExcelParser) <==> !EndsWith(path, ".csv") && (EndsWith(path, ".xls") || EndsWith(path, ".xlsx"))
    ensures p == None <==> !EndsWith(path, ".csv") && !EndsWith(path, ".xls") && !EndsWith(path, ".xlsx")
  {
    if EndsWith(path, ".csv") then Some(CsvParser)
    else if EndsWith(path, ".xls") || EndsWith(path, ".xlsx") then Some(ExcelParser)
    else None
  }

  /** A `DatasetAnalyzer`: its path and its frame, `None` until a parser assigned one. */
  datatype Analyzer<V> = Analyzer(filePath: string, df: Option<Table<V>>)

  const LoadErrorPrefix := "Erreur lors du chargement du fichier: "

  /** Constructing a `DatasetAnalyzer`: `df` starts as `None`, then `load_data`
      runs the parser the suffix selects. `read` stands for the pandas parsers. */
  function Load<V>(path: string, read: Parser -> Result<Table<V>, string>): (r: Result<Analyzer<V>, AnalyzerError>)
    ensures SelectParser(path) == None ==> r == Success(Analyzer(path, None))
    ensures r.Success? ==> r.value.filePath == path
    ensures r.Success? && r.value.df.Some? ==>
              SelectParser(path).Some? && read(SelectParser(path).value) == Success(r.value.df.value)
    ensures r.Failure? <==> SelectParser(path).Some? && read(SelectParser(path).value).Failure?
    ensures r.Failure? ==> r.error == LoadFailed(LoadErrorPrefix + read(SelectParser(path).value).error)
    ensures SelectParser(path).Some? && read(SelectParser(path).value).Success? ==>
              r == Success(Analyzer(path, Some(read(SelectParser(path).value).value)))
  {
    match SelectParser(path)
    case None => Success(Analyzer(path, None))
    case Some(p) =>
      match read(p)
      case Success(t) => Success(Analyzer(path, Some(t)))
      case Failure(e) => Failure(LoadFailed(LoadErrorPrefix + e))
  }

  /** A path in upper case selects no parser: the suffix test is case-sensitive,
      and the analyzer is left without a frame and without an error. */
  lemma UpperCaseSuffixLoadsNothing<V>(read: Parser -> Result<Table<V>, string>)
    ensures SelectParser("datasets/X.CSV") == None
    ensures Load("datasets/X.CSV", read) == Success(Analyzer("datasets/X.CSV", None))
  {
  }

  // ------------------------------------------------------- missing values

  /** `isnull().sum()`: the number of empty cells. */
  function MissingCount<V>(values: seq<Option<V>>): (n: nat)
    ensures n <= |values|
    ensures n == 0 <==> forall i :: 0 <= i < |values| ==> values[i].Some?
    ensures n == |values| <==> forall i :: 0 <= i < |values| ==> values[i].None?
    ensures n == multiset(values)[None]
  {
    if |values| == 0 then 0
    else
      var front := values[..|values| - 1];
      assert values == front + [values[|values| - 1]];
      assert forall i :: 0 <= i < |front| ==> front[i] == values[i];
      MissingCount(front) + (if values[|values| - 1].None? then 1 else 0)
  }

  /** Python's `round(x, 2)` for `x = num / den * 100`, in hundredths: the integer
      nearest to `num * 10000 / den`, ties going to the even neighbour. */
  function RoundHundredths(num: nat, den: nat): (h: nat)
    requires den > 0
    ensures -(den as int) <= 2 * (h * den - num * 10000) <= den
    ensures 2 * (h * den - num * 10000) == den ==> h % 2 == 0
    ensures 2 * (h * den - num * 10000) == -(den as int) ==> h % 2 == 0
  {
    var q := (num * 10000) / den;
    var r := (num * 10000) % den;
    assert num * 10000 == q * den + r;
    if 2 * r < den then q
    else if 2 * r > den then q + 1
    else if q % 2 == 0 then q
    else q + 1
  }

  /** `round(missing_count / len(df) * 100, 2)`; NaN when the frame has no rows
      (numpy divides by zero without raising). */
  function MissingPercent(missing: nat, rows: nat): (p: Percent)
    ensures p.NotANumber? <==> rows == 0
    ensures p.Hundredths? && missing <= rows ==> p.n <= 10000
    ensures p.Hundredths? && missing == 0 ==> p.n == 0
    ensures p.Hundredths? && missing == rows ==> p.n == 10000
    ensures p.Hundredths? ==> -(rows as int) <= 2 * (p.n * rows - missing * 10000) <= rows
    ensures p.Hundredths? && 2 * (p.n * rows - missing * 10000) == rows ==> p.n % 2 == 0
    ensures p.Hundredths? && 2 * (p.n * rows - missing * 10000) == -(rows as int) ==> p.n % 2 == 0
  {
    if rows == 0 then NotANumber
    else
      var h := RoundHundredths(missing, rows);
      HundredthsBounds(missing, rows, h);
      Hundredths(h)
  }

  /** Multiplying by a non-negative factor keeps an inequality. */
  lemma MulMonotone(a: int, b: int, c: nat)
    requires a <= b
    ensures a * c <= b * c
  {
  }

  /** The rounded percentage of a share of the rows stays within 0..100 and hits
      the ends exactly. */
  lemma HundredthsBounds(missing: nat, rows: nat, h: nat)
    requires rows > 0
    requires -(rows as int) <= 2 * (h * rows - missing * 10000) <= rows
    ensures missing <= rows ==> h <= 10000
    ensures missing == 0 ==> h == 0
    ensures missing == rows ==> h == 10000
  {
    if missing <= rows && h > 10000 {
      MulMonotone(10001, h, rows);
    }
    if missing == 0 && h > 0 {
      MulMonotone(1, h, rows);
    }
    if missing == rows && h < 10000 {
      MulMonotone(h, 9999, rows);
    }
  }

  // ------------------------------------------------------------ classifier

  /** The non-empty cells' distinct values: `nunique()` is the size of this set. */
  function Distinct<V(==)>(values: seq<Option<V>>): (r: set<V>)
    ensures forall i :: 0 <= i < |values| && values[i].Some? ==> values[i].value in r
    ensures forall x :: x in r ==> exists i :: 0 <= i < |values| && values[i] == Some(x)
  {
    set i | 0 <= i < |values| && values[i].Some? :: values[i].value
  }

  /** The dtype test of line 24: the label is one of the two 64-bit numeric ones. */
  predicate IsNumericLabel(dtype: string) {
    dtype in ["int64", "float64"]
  }

  /** The categorical test of line 28 as written: `nunique / len < 0.05 and len > 20`. */
  predicate FewDistinct(distinct: nat, rows: nat)
    requires rows > 0
  {
    (distinct as real) / (rows as real) < 0.05 && rows > 20
  }

  /** Dividing by a positive number preserves a strict comparison. */
  lemma DivLess(a: real, b: real, n: real)
    requires n > 0.0
    ensures a / n < b <==> a < b * n
  {
  }

  /** The ratio test is exactly the integer comparison `20 * distinct < rows`. */
  lemma FewDistinctExact(distinct: nat, rows: nat)
    requires rows > 0
    ensures FewDistinct(distinct, rows) <==> 20 * distinct < rows && rows > 20
  {
    DivLess(distinct as real, 0.05, rows as real);
  }

  /** The type decision for one column of a frame with `rows` rows. */
  function Classify<V(==)>(c: Column<V>, rows: nat): (r: Result<ColumnType, AnalyzerError>)
    ensures r == Success(Numeric) <==> c.dtype.Label() == "int64" || c.dtype.Label() == "float64"
    ensures r == Success(Date) <==> !IsNumericLabel(c.dtype.Label()) && c.dtype.Datetime64?
    ensures r.Failure? <==> !IsNumericLabel(c.dtype.Label()) && !c.dtype.Datetime64? && rows == 0
    ensures r.Failure? ==> r.error == ZeroDivision
    ensures r == Success(Categorical) <==>
              && !IsNumericLabel(c.dtype.Label()) && !c.dtype.Datetime64?
              && 20 * |Distinct(c.values)| < rows && rows > 20
    ensures r == Success(Text) <==>
              && !IsNumericLabel(c.dtype.Label()) && !c.dtype.Datetime64?
              && rows > 0 && !(20 * |Distinct(c.values)| < rows && rows > 20)
  {
    if IsNumericLabel(c.dtype.Label()) then Success(Numeric)
    else if c.dtype.Datetime64? then Success(Date)
    else if rows == 0 then Failure(ZeroDivision)
    else
      FewDistinctExact(|Distinct(c.values)|, rows);
      if FewDistinct(|Distinct(c.values)|, rows) then Success(Categorical) else Success(Text)
  }

  /** The strict comparisons of line 28: a 20-row frame never yields a categorical
      column, nor does a distinct ratio of exactly one in twenty. */
  lemma CategoricalBoundaries<V>(c: Column<V>, rows: nat)
    ensures rows <= 20 ==> Classify(c, rows) != Success(Categorical)
    ensures 20 * |Distinct(c.values)| == rows ==> Classify(c, rows) != Success(Categorical)
    ensures (rows > 0 && !IsNumericLabel(c.dtype.Label()) && !c.dtype.Datetime64? && 20 * |Distinct(c.values)| == rows)
              ==> Classify(c, rows) == Success(Text)
  {
  }

  /** A non-numeric, non-date column whose cells are all empty is categorical as
      soon as the frame has more than 20 rows: it has no distinct value at all. */
  lemma AllEmptyColumnIsCategorical<V>(c: Column<V>, rows: nat)
    requires !IsNumericLabel(c.dtype.Label()) && !c.dtype.Datetime64?
    requires forall i :: 0 <= i < |c.values| ==> c.values[i].None?
    requires rows > 20
    ensures Classify(c, rows) == Success(Categorical)
  {
    assert Distinct(c.values) == {};
  }

  /** A column holds at most as many distinct values as non-empty cells. */
  lemma {:induction false} DistinctBound<V>(values: seq<Option<V>>)
    ensures |Distinct(values)| + MissingCount(values) <= |values|
  {
    if |values| > 0 {
      var front := values[..|values| - 1];
      var last := values[|values| - 1];
      DistinctBound(front);
      assert forall i :: 0 <= i < |front| ==> front[i] == values[i];
      assert MissingCount(values) == MissingCount(front) + (if last.None? then 1 else 0);
      DistinctSnoc(values);
      if last.Some? {
        assert |Distinct(front) + {last.value}| <= |Distinct(front)| + 1;
      }
    }
  }

  /** Appending a cell adds its value, if any, to the distinct values. */
  lemma DistinctSnoc<V>(values: seq<Option<V>>)
    requires |values| > 0
    ensures var front, last := values[..|values| - 1], values[|values| - 1];
            Distinct(values) == Distinct(front) + (if last.Some? then {last.value} else {})
  {
    var front, last := values[..|values| - 1], values[|values| - 1];
    var added: set<V> := if last.Some? then {last.value} else {};
    forall x | x in Distinct(values) ensures x in Distinct(front) + added {
      var i :| 0 <= i < |values| && values[i] == Some(x);
      if i < |front| {
        assert front[i] == Some(x);
      }
    }
    forall x | x in Distinct(front) + added ensures x in Distinct(values) {
      if x in Distinct(front) {
        var i :| 0 <= i < |front| && front[i] == Some(x);
        assert values[i] == Some(x);
      }
    }
  }

  /** The entry `detect_column_types` builds for one column. */
  function InfoOf<V(==)>(c: Column<V>, rows: nat): (r: Result<ColumnInfo, AnalyzerError>)
    ensures r.Success? <==> Classify(c, rows).Success?
    ensures r.Success? ==> r.value.kind == Classify(c, rows).value
    ensures r.Success? ==> r.value.dtype == c.dtype.Label()
    ensures r.Success? ==> r.value.missingCount == MissingCount(c.values)
    ensures r.Success? ==> r.value.missingPercent == MissingPercent(MissingCount(c.values), rows)
  {
    var kind :- Classify(c, rows);
    var missing := MissingCount(c.values);
    Success(ColumnInfo(kind, c.dtype.Label(), missing, MissingPercent(missing, rows)))
  }

  /** True when the column name occurs more than once in the frame. */
  predicate Duplicated<V>(t: Table<V>, name: string) {
    exists i, j :: 0 <= i < j < |t.columns| && t.columns[i].name == name && t.columns[j].name == name
  }

  predicate UniqueNames<V>(t: Table<V>) {
    forall i, j :: 0 <= i < j < |t.columns| ==> t.columns[i].name != t.columns[j].name
  }

  /** The names of the columns from index `k` on. */
  function NamesFrom<V>(t: Table<V>, k: nat): set<string>
    requires k <= |t.columns|
  {
    set i | k <= i < |t.columns| :: t.columns[i].name
  }

  /** The column at index `i` gets through one round of the loop: its name is
      not shared and its classification does not raise. */
  predicate ColumnOk<V(==)>(t: Table<V>, i: nat)
    requires i < |t.columns|
  {
    !Duplicated(t, t.columns[i].name) && Classify(t.columns[i], t.rows).Success?
  }

  /** Column `i` is the first one from index `k` on that does not get through
      the loop: the exception it raises is the one that escapes. */
  predicate FirstFailing<V(==)>(t: Table<V>, k: nat, i: nat) {
    && k <= i < |t.columns|
    && !ColumnOk(t, i)
    && forall j :: k <= j < i ==> ColumnOk(t, j)
  }

  /** The exception column `i` raises: `AttributeError` at the `dtype` lookup
      when its name is shared, otherwise the division of the ratio test. */
  function FailureAt<V>(t: Table<V>, i: nat): AnalyzerError
    requires i < |t.columns|
  {
    if Duplicated(t, t.columns[i].name) then DuplicateColumn(t.columns[i].name) else ZeroDivision
  }

  /** A name that is not duplicated belongs to no other column. */
  lemma NotDuplicatedIsAlone<V>(t: Table<V>, k: nat)
    requires k < |t.columns|
    requires !Duplicated(t, t.columns[k].name)
    ensures forall i :: 0 <= i < |t.columns| && i != k ==> t.columns[i].name != t.columns[k].name
  {
  }

  /** The loop of `detect_column_types` from column `k` on; the first column that
      raises ends the call. */
  function DetectFrom<V(==)>(t: Table<V>, k: nat): (r: Result<map<string, ColumnInfo>, AnalyzerError>)
    requires k <= |t.columns|
    decreases |t.columns| - k
    ensures r.Success? <==> forall i :: k <= i < |t.columns| ==> ColumnOk(t, i)
    ensures r.Failure? ==> r.error == ZeroDivision || (r.error.DuplicateColumn? && Duplicated(t, r.error.name))
    ensures r.Failure? ==> exists i :: FirstFailing(t, k, i) && r.error == FailureAt(t, i)
    ensures r.Success? ==> r.value.Keys == NamesFrom(t, k)
    ensures r.Success? ==>
              forall i :: k <= i < |t.columns| ==> InfoOf(t.columns[i], t.rows) == Success(r.value[t.columns[i].name])
  {
    if k == |t.columns| then Success(map[])
    else
      var c := t.columns[k];
      if Duplicated(t, c.name) then
        assert FirstFailing(t, k, k);
        Failure(DuplicateColumn(c.name))
      else
        match InfoOf(c, t.rows)
        case Failure(e) =>
          assert FirstFailing(t, k, k);
          Failure(e)
        case Success(info) =>
          match DetectFrom(t, k + 1)
          case Failure(e) =>
            assert ColumnOk(t, k);
            var i :| FirstFailing(t, k + 1, i) && e == FailureAt(t, i);
            assert FirstFailing(t, k, i);
            Failure(e)
          case Success(rest) =>
            NotDuplicatedIsAlone(t, k);
            assert NamesFrom(t, k) == NamesFrom(t, k + 1) + {c.name};
            Success(rest[c.name := info])
  }

  /** `detect_column_types`: one entry per column name, each computed from its own
      column alone. */
  function DetectColumnTypes<V(==)>(t: Table<V>): (r: Result<map<string, ColumnInfo>, AnalyzerError>)
    ensures r.Success? <==>
              && UniqueNames(t)
              && (t.rows > 0 || forall i :: 0 <= i < |t.columns| ==> IsNumericLabel(t.columns[i].dtype.Label()) || t.columns[i].dtype.Datetime64?)
    ensures r.Failure? && UniqueNames(t) ==> r.error == ZeroDivision
    ensures r.Failure? ==> exists i :: FirstFailing(t, 0, i) && r.error == FailureAt(t, i)
    ensures r.Failure? && t.rows > 0 ==> r.error.DuplicateColumn?
    ensures r.Success? ==> r.value.Keys == set i | 0 <= i < |t.columns| :: t.columns[i].name
    ensures r.Success? ==>
              forall i :: 0 <= i < |t.columns| ==> InfoOf(t.columns[i], t.rows) == Success(r.value[t.columns[i].name])
  {
    AllColumnsOkIff(t);
    DetectFrom(t, 0)
  }

  /** Every column gets through the loop exactly when the names are unique and
      no column reaches the ratio test of an empty frame. */
  lemma AllColumnsOkIff<V>(t: Table<V>)
    ensures (forall i :: 0 <= i < |t.columns| ==> ColumnOk(t, i)) <==>
              && UniqueNames(t)
              && (t.rows > 0 || forall i :: 0 <= i < |t.columns| ==> IsNumericLabel(t.columns[i].dtype.Label()) || t.columns[i].dtype.Datetime64?)
  {
    if !UniqueNames(t) {
      var i, j :| 0 <= i < j < |t.columns| && t.columns[i].name == t.columns[j].name;
      assert Duplicated(t, t.columns[i].name);
      assert !ColumnOk(t, i);
    } else {
      forall i | 0 <= i < |t.columns|
        ensures ColumnOk(t, i) <==> IsNumericLabel(t.columns[i].dtype.Label()) || t.columns[i].dtype.Datetime64? || t.rows > 0
      {
        assert !Duplicated(t, t.columns[i].name);
        assert Classify(t.columns[i], t.rows).Failure? <==>
                 !IsNumericLabel(t.columns[i].dtype.Label()) && !t.columns[i].dtype.Datetime64? && t.rows == 0;
      }
    }
  }

  /** The missing figures are the column's own and stay within range whatever
      tag the column receives. */
  lemma MissingFiguresInRange<V>(t: Table<V>, i: nat)
    requires t.Rectangular()
    requires i < |t.columns|
    requires UniqueNames(t)
    requires t.rows > 0 || forall j :: 0 <= j < |t.columns| ==> IsNumericLabel(t.columns[j].dtype.Label()) || t.columns[j].dtype.Datetime64?
    ensures var info := DetectColumnTypes(t).value[t.columns[i].name];
            && info.missingCount <= t.rows
            && (t.rows > 0 ==> info.missingPercent.Hundredths? && info.missingPercent.n <= 10000)
            && (t.rows == 0 ==> info.missingPercent.NotANumber?)
  {
  }

  /** The analyzer's `detect_column_types`: raises when no frame was loaded. */
  function AnalyzerDetect<V(==)>(a: Analyzer<V>): (r: Result<map<string, ColumnInfo>, AnalyzerError>)
    ensures a.df.None? ==> r == Failure(NoFrame)
    ensures a.df.Some? ==> r == DetectColumnTypes(a.df.value)
  {
    match a.df
    case None => Failure(NoFrame)
    case Some(t) => DetectColumnTypes(t)
  }

  // ----------------------------------------------------------- basic info

  /** `get_basic_info` without `memory_usage`. */
  datatype BasicInfo = BasicInfo(numRows: nat, numColumns: nat, columnNames: seq<string>)

  function GetBasicInfo<V>(t: Table<V>): (r: BasicInfo)
    ensures r.numRows == t.rows
    ensures r.numColumns == |r.columnNames| == |t.columns|
    ensures forall i :: 0 <= i < |t.columns| ==> r.columnNames[i] == t.columns[i].name
    ensures t.Rectangular() ==> forall i :: 0 <= i < |t.columns| ==> |t.columns[i].values| == r.numRows
  {
    BasicInfo(t.rows, |t.columns|, seq(|t.columns|, i requires 0 <= i < |t.columns| => t.columns[i].name))
  }

  /** `get_basic_info` on an analyzer: with no frame, `len(self.df)` on `None`
      raises, just as `detect_column_types` does. */
  function AnalyzerBasicInfo<V>(a: Analyzer<V>): (r: Result<BasicInfo, AnalyzerError>)
    ensures a.df.None? ==> r == Failure(NoFrame)
    ensures a.df.Some? ==> r.Success? && r.value.numRows == a.df.value.rows
    ensures a.df.Some? ==> r.Success? && r.value.numColumns == |a.df.value.columns|
    ensures a.df.Some? ==> r == Success(GetBasicInfo(a.df.value))
  {
    match a.df
    case None => Failure(NoFrame)
    case Some(t) => Success(GetBasicInfo(t))
  }

  /** Whenever classification succeeds, its keys are exactly the reported column
      names and there are as many of them as the reported column count. */
  lemma {:induction false} SummaryAgreesWithClassification<V>(t: Table<V>)
    requires UniqueNames(t)
    requires t.rows > 0 || forall j :: 0 <= j < |t.columns| ==> IsNumericLabel(t.columns[j].dtype.Label()) || t.columns[j].dtype.Datetime64?
    ensures var info := GetBasicInfo(t);
            && DetectColumnTypes(t).value.Keys == set n | n in info.columnNames
            && |DetectColumnTypes(t).value| == info.numColumns
  {
    SummaryNamesByIndex(t);
    DistinctNamesCount(t, |t.columns|);
  }

  /** The summary's names, as a set, are the columns' names by index. */
  lemma SummaryNamesByIndex<V>(t: Table<V>)
    ensures (set n | n in GetBasicInfo(t).columnNames) == set i | 0 <= i < |t.columns| :: t.columns[i].name
  {
    var info := GetBasicInfo(t);
    var byIndex := set i | 0 <= i < |t.columns| :: t.columns[i].name;
    forall n | n in info.columnNames ensures n in byIndex {
      var i :| 0 <= i < |info.columnNames| && info.columnNames[i] == n;
      assert n == t.columns[i].name;
    }
  }

  /** The first `k` names of a frame without duplicate names form a set of size `k`. */
  lemma {:induction false} DistinctNamesCount<V>(t: Table<V>, k: nat)
    requires UniqueNames(t)
    requires k <= |t.columns|
    ensures |set i | 0 <= i < k :: t.columns[i].name| == k
  {
    if k > 0 {
      DistinctNamesCount(t, k - 1);
      var before := set i | 0 <= i < k - 1 :: t.columns[i].name;
      assert t.columns[k - 1].name !in before;
      assert (set i | 0 <= i < k :: t.columns[i].name) == before + {t.columns[k - 1].name};
    }
  }
}

=== FILE: overview.dfy ===
/** The overview page's entry point, eda_app/static/js/overview.js: the guard in
    `init` and the statistics reload on a column change. */
module Overview {
  import opened Wrappers
  import opened TabsManager

  /** JavaScript truthiness (NaN, which is also falsy, is not modelled). */
  predicate Truthy(v: JsValue) {
    match v
    case Undefined => false
    case Null => false
    case Bool(b) => b
    case Num(x) => x != 0.0
    case Str(s) => s != ""
  }

  /** The `AjaxLoader` the page creates, with its base URL. */
  datatype AjaxLoader = AjaxLoader(baseUrl: string)

  /** An `OverviewApp`: the globals it copied, the components it created, and
      whether a change listener sits on the column selector. */
  datatype OverviewApp = OverviewApp(
    datasetId: JsValue,
    datasetName: JsValue,
    loader: Option<AjaxLoader>,
    tabs: Option<TabState>,
    listening: bool)
  {
    /** A listener is only ever attached after the tab manager exists. */
    predicate Consistent() {
      listening ==> tabs.Some?
    }
  }

  /** `new OverviewApp()`: the constructor nulls every field, then `init` copies
      `window.datasetId` and `window.datasetName` and, unless the id is falsy,
      creates the loader and the tab manager and attaches the listener when the
      page has a column selector. */
  function NewOverviewApp(windowDatasetId: JsValue, windowDatasetName: JsValue, hasColumnSelector: bool): (app: OverviewApp)
    ensures app.datasetId == windowDatasetId && app.datasetName == windowDatasetName
    ensures !Truthy(windowDatasetId) ==> app.loader == None && app.tabs == None && !app.listening
    ensures Truthy(windowDatasetId) ==>
              && app.loader == Some(AjaxLoader(""))
              && app.tabs.Some?
              && app.tabs.value.datasetId == app.datasetId
              && app.tabs.value.active == "general" && app.tabs.value.loaded == {"general"}
              && app.listening == hasColumnSelector
    ensures app.Consistent()
  {
    if !Truthy(windowDatasetId) then OverviewApp(windowDatasetId, windowDatasetName, None, None, false)
    else OverviewApp(windowDatasetId, windowDatasetName, Some(AjaxLoader("")), Some(TabsManager.Init(windowDatasetId)), hasColumnSelector)
  }

  /** `handleColumnSelection` on the app's tab manager. `selected` is
      `columnSelector?.value`: `None` when the page has no selector. */
  function HandleColumnSelection(s: TabState, selected: Option<string>, outcome: FetchOutcome): (r: Step)
    ensures r.state.active == s.active
    ensures r.state.datasetId == s.datasetId
    ensures r.load.Some? <==> selected.Some? && selected.value != "" && s.active == "statistics"
    ensures r.load.None? ==> r.state == s
    ensures r.load.Some? ==>
              && r.state.loaded == s.loaded - {"statistics"}
              && r.load.value.fetch == Some(Fetch(Statistics, s.datasetId))
    ensures r.load.Some? ==> r.load.value == LoadTabContent("statistics", s.datasetId, outcome)
    ensures r.load.Some? ==> (r.load.value.panel.ContentShown? <==> outcome.Delivered?)
  {
    if selected.Some? && selected.value != "" && s.active == "statistics" then
      Step(s.(loaded := s.loaded - {"statistics"}), Some(LoadTabContent("statistics", s.datasetId, outcome)))
    else
      Step(s, None)
  }

  /** The reload does not depend on which column was picked: the statistics
      request carries only the dataset id. */
  lemma ReloadIgnoresSelectedColumn(s: TabState, c1: string, c2: string, outcome: FetchOutcome)
    requires c1 != "" && c2 != ""
    ensures HandleColumnSelection(s, Some(c1), outcome) == HandleColumnSelection(s, Some(c2), outcome)
  {
  }

  /** A change event on the column selector: it reaches `handleColumnSelection`
      only when `init` attached the listener. */
  function OnColumnChange(app: OverviewApp, selected: Option<string>, outcome: FetchOutcome): (r: (OverviewApp, Option<Load>))
    requires app.Consistent()
    ensures r.0.Consistent()
    ensures !app.listening ==> r == (app, None)
    ensures r.0.datasetId == app.datasetId && r.0.listening == app.listening && r.0.tabs.Some? == app.tabs.Some?
    ensures app.listening ==>
              var step := HandleColumnSelection(app.tabs.value, selected, outcome);
              r.0.tabs == Some(step.state) && r.1 == step.load
    ensures app.listening ==>
              r.0 == app.(tabs := Some(HandleColumnSelection(app.tabs.value, selected, outcome).state))
    ensures r.0.loader == app.loader && r.0.datasetName == app.datasetName
  {
    if !app.listening then (app, None)
    else
      var step := HandleColumnSelection(app.tabs.value, selected, outcome);
      (app.(tabs := Some(step.state)), step.load)
  }

  /** The at-most-once guarantee of the tab manager holds only until a column
      change: after one, leaving the statistics tab and coming back fetches the
      statistics again. */
  lemma StatisticsRefetchedAfterColumnChange(s: TabState, column: string, o1: FetchOutcome, o2: FetchOutcome, o3: FetchOutcome)
    requires s.active == "statistics"
    requires column != ""
    ensures var afterChange := HandleColumnSelection(s, Some(column), o1).state;
            var away := ShowTab(afterChange, "general", o2).state;
            var back := ShowTab(away, "statistics", o3);
            && "statistics" !in afterChange.loaded
            && back.load.Some?
            && back.load.value.fetch == Some(Fetch(Statistics, s.datasetId))
            && "statistics" in back.state.loaded
  {
  }
}

=== FILE: strings.dfy ===
/** The two string operations the upload check and the loader rely on. */
module Strings {

  /** Python's `s.endswith(suffix)`: case-sensitive, exact suffix. */
  predicate EndsWith(s: string, suffix: string) {
    |suffix| <= |s| && s[|s| - |suffix|..] == suffix
  }

  /** Lower-cases one ASCII letter and leaves every other character alone. */
  function LowerChar(c: char): char {
    if 'A' <= c <= 'Z' then (c as int + 32) as char else c
  }

  /** True of a string that lower-casing leaves as it is. */
  predicate IsLower(s: string) {
    forall i :: 0 <= i < |s| ==> LowerChar(s[i]) == s[i]
  }

  /** Python's `s.lower()` restricted to ASCII letters. */
  function Lower(s: string): (r: string)
    ensures |r| == |s|
    ensures forall i :: 0 <= i < |s| ==> r[i] == LowerChar(s[i])
    ensures IsLower(r)
  {
    seq(|s|, i requires 0 <= i < |s| => LowerChar(s[i]))
  }

  /** Lower-casing is idempotent. */
  lemma LowerIdempotent(s: string)
    ensures Lower(Lower(s)) == Lower(s)
  {
  }

  /** A lower-case suffix of `s` is still a suffix once `s` is lower-cased:
      a case-insensitive suffix test accepts everything the case-sensitive one does. */
  lemma EndsWithLower(s: string, suffix: string)
    requires IsLower(suffix)
    requires EndsWith(s, suffix)
    ensures EndsWith(Lower(s), suffix)
  {
  }
}

=== FILE: tabs.dfy ===
/** The tab state machine of eda_app/static/js/tabs-manager.js and its two
    display classifiers.

    The DOM work of `showTab` and `loadTabContent` (class toggling, HTML
    building) is left out; what remains is which tab is active, which tabs count
    as loaded, and which data request each transition issues. A fetch is
    represented by its outcome, which `loadTabContent` catches in every case. */
module TabsManager {
  import opened Wrappers

  /** A JavaScript value as the page's globals can hold it. */
  datatype JsValue = Undefined | Null | Bool(b: bool) | Num(x: real) | Str(s: string)

  /** The fields of a `TabsManager` that its transitions read and write. */
  datatype TabState = TabState(active: string, loaded: set<string>, datasetId: JsValue)

  /** The three tabs that have a data endpoint. */
  datatype Endpoint = Statistics | Distributions | Correlations

  /** The endpoint a tab name selects in the `switch` of `loadTabContent`. */
  function EndpointOf(tab: string): (e: Option<Endpoint>)
    ensures e == Some(Statistics) <==> tab == "statistics"
    ensures e == Some(Distributions) <==> tab == "distributions"
    ensures e == Some(Correlations) <==> tab == "correlations"
    ensures e == None <==> tab !in {"statistics", "distributions", "correlations"}
  {
    if tab == "statistics" then Some(Statistics)
    else if tab == "distributions" then Some(Distributions)
    else if tab == "correlations" then Some(Correlations)
    else None
  }

  /** A data request: the endpoint and the dataset id it was asked for. */
  datatype Fetch = Fetch(endpoint: Endpoint, datasetId: JsValue)

  /** What the network (and the render that follows it) did with a request. */
  datatype FetchOutcome = Delivered | Failed(message: string)

  /** What the tab panel shows once `loadTabContent` has returned. */
  datatype Panel = ContentShown(tab: string) | ErrorShown(tab: string, message: string)

  /** The request `loadTabContent` issued, if any, and the panel it left. */
  datatype Load = Load(fetch: Option<Fetch>, panel: Panel)

  /** `loadTabContent`: every exception, including the one for an unknown tab
      name, ends in the error panel; none escapes. */
  function LoadTabContent(tab: string, datasetId: JsValue, outcome: FetchOutcome): (l: Load)
    ensures l.fetch.Some? <==> EndpointOf(tab).Some?
    ensures l.fetch.Some? ==> l.fetch.value == Fetch(EndpointOf(tab).value, datasetId)
    ensures l.panel.tab == tab
    ensures l.panel.ContentShown? <==> EndpointOf(tab).Some? && outcome.Delivered?
  {
    match EndpointOf(tab)
    case None => Load(None, ErrorShown(tab, "Onglet non reconnu: " + tab))
    case Some(e) =>
      match outcome
      case Delivered => Load(Some(Fetch(e, datasetId)), ContentShown(tab))
      case Failed(m) => Load(Some(Fetch(e, datasetId)), ErrorShown(tab, m))
  }

  /** The constructor followed by `setDatasetId`. */
  function Init(datasetId: JsValue): (s: TabState)
    ensures s.active == "general"
    ensures s.loaded == {"general"}
    ensures s.datasetId == datasetId
  {
    TabState("general", {"general"}, datasetId)
  }

  /** One transition: the new state, the content load it ran (if any). */
  datatype Step = Step(state: TabState, load: Option<Load>)

  /** `showTab(tab)`, with `outcome` standing for whatever the fetch did. */
  function ShowTab(s: TabState, tab: string, outcome: FetchOutcome): (r: Step)
    ensures s.active == tab ==> r == Step(s, None)
    ensures s.active != tab ==>
              && r.state.active == tab
              && r.state.loaded == s.loaded + {tab}
              && r.state.datasetId == s.datasetId
    ensures r.load.Some? <==> s.active != tab && tab !in s.loaded
    ensures r.load.Some? ==> r.load.value == LoadTabContent(tab, s.datasetId, outcome)
  {
    if s.active == tab then Step(s, None)
    else if tab !in s.loaded then
      Step(s.(active := tab, loaded := s.loaded + {tab}), Some(LoadTabContent(tab, s.datasetId, outcome)))
    else
      Step(s.(active := tab), None)
  }

  /** The state after `showTab` does not depend on whether the fetch succeeded,
      failed, or was never possible because the tab name is unknown. */
  lemma ShowTabIgnoresOutcome(s: TabState, tab: string, o1: FetchOutcome, o2: FetchOutcome)
    ensures ShowTab(s, tab, o1).state == ShowTab(s, tab, o2).state
    ensures ShowTab(s, tab, o1).load.Some? == ShowTab(s, tab, o2).load.Some?
  {
  }

  /** A sequence of clicks on tab buttons, each with the outcome of its fetch. */
  datatype Click = Click(tab: string, outcome: FetchOutcome)

  /** The final state after a run of clicks, and the tabs whose content was
      loaded along the way, in order. */
  function Run(s: TabState, clicks: seq<Click>): (r: (TabState, seq<string>))
    decreases |clicks|
  {
    if |clicks| == 0 then (s, [])
    else
      var step := ShowTab(s, clicks[0].tab, clicks[0].outcome);
      var (final, loads) := Run(step.state, clicks[1..]);
      (final, (if step.load.Some? then [clicks[0].tab] else []) + loads)
  }

  /** Within one manager, over clicks each made after the previous fetch has
      settled, each tab's content is loaded at most once: the loaded tabs are
      pairwise distinct, none was loaded before the run, all are loaded after
      it, and the loaded set only grows. A second click on a tab whose fetch is
      still pending is outside this run and fetches again. */
  lemma {:induction false} LoadedAtMostOnce(s: TabState, clicks: seq<Click>)
    ensures var (final, loads) := Run(s, clicks);
            && (forall i, j :: 0 <= i < j < |loads| ==> loads[i] != loads[j])
            && (forall i :: 0 <= i < |loads| ==> loads[i] !in s.loaded && loads[i] in final.loaded)
            && s.loaded <= final.loaded
    decreases |clicks|
  {
    if |clicks| > 0 {
      var step := ShowTab(s, clicks[0].tab, clicks[0].outcome);
      LoadedAtMostOnce(step.state, clicks[1..]);
    }
  }

  /** From a fresh manager the general tab is never fetched. */
  lemma GeneralNeverLoaded(datasetId: JsValue, clicks: seq<Click>)
    ensures "general" !in Run(Init(datasetId), clicks).1
  {
    LoadedAtMostOnce(Init(datasetId), clicks);
  }

  // ------------------------------------------------------------ classifiers

  /** The text colour of a correlation-matrix cell. */
  datatype CellColor = Green | Blue | Yellow | Gray {
    function CssClass(): string {
      match this
      case Green => "text-green-600"
      case Blue => "text-blue-600"
      case Yellow => "text-yellow-600"
      case Gray => "text-gray-600"
    }
    /** Position in the scale, Gray lowest. */
    function Rank(): nat {
      match this
      case Gray => 0
      case Yellow => 1
      case Blue => 2
      case Green => 3
    }
  }

  /** The colour chosen for a correlation value, compared on the signed value. */
  function CellColorOf(v: real): (c: CellColor)
    ensures c == Green <==> v >= 0.7
    ensures c == Blue <==> 0.5 <= v < 0.7
    ensures c == Yellow <==> 0.3 <= v < 0.5
    ensures c == Gray <==> v < 0.3
  {
    if v >= 0.7 then Green else if v >= 0.5 then Blue else if v >= 0.3 then Yellow else Gray
  }

  /** The colour grows with the value, and every negative correlation, however
      strong, is gray. */
  lemma CellColorMonotone(v: real, w: real)
    ensures v <= w ==> CellColorOf(v).Rank() <= CellColorOf(w).Rank()
    ensures v < 0.0 ==> CellColorOf(v) == Gray
    ensures CellColorOf(-1.0) == Gray && CellColorOf(1.0) == Green
  {
  }

  /** The text colour of a pair's strength label. */
  datatype StrengthColor = Red | Orange | YellowLabel {
    function CssClass(): string {
      match this
      case Red => "text-red-600"
      case Orange => "text-orange-600"
      case YellowLabel => "text-yellow-600"
    }
  }

  function StrengthColorOf(strength: string): (c: StrengthColor)
    ensures c == Red <==> strength == "forte"
    ensures c == Orange <==> strength == "modérée"
    ensures c == YellowLabel <==> strength != "forte" && strength != "modérée"
  {
    if strength == "forte" then Red else if strength == "modérée" then Orange else YellowLabel
  }

  /** The arrow shown for a pair's direction. */
  function DirectionIcon(direction: string): (icon: char)
    ensures icon == '↗' <==> direction == "positive"
    ensures icon == '↘' <==> direction != "positive"
  {
    if direction == "positive" then '↗' else '↘'
  }

  /** The label tests are exact string comparisons: a differently cased label
      falls through to the default colour and arrow. */
  lemma LabelTestsAreExact()
    ensures StrengthColorOf("Forte") == YellowLabel
    ensures StrengthColorOf("moderee") == YellowLabel
    ensures DirectionIcon("Positive") == '↘'
    ensures DirectionIcon("negative") == '↘'
  {
  }
}

=== FILE: views.dfy ===
/** The upload view and the dataset list of eda_app/views.py, over the `Dataset`
    record of eda_app/models.py. The database table of datasets is a sequence in
    insertion order; storage and the clock are parameters. */
module Views {
  import opened Wrappers
  import opened Strings
  import DataAnalyzer

  /** A row of the `Dataset` model. */
  datatype Dataset = Dataset(
    name: string,
    filePath: string,
    size: nat,
    uploadDate: int,
    numRows: Option<nat>,
    numColumns: Option<nat>,
    status: string)

  /** `Dataset.objects.create(name=..., file_path=..., size=...)`: the remaining
      fields take the model's defaults. */
  function NewDataset(name: string, filePath: string, size: nat, now: int): (d: Dataset)
    ensures d.name == name && d.filePath == filePath && d.size == size
    ensures d.uploadDate == now
    ensures d.status == "uploaded"
    ensures d.numRows == None && d.numColumns == None
  {
    Dataset(name, filePath, size, now, None, None, "uploaded")
  }

  /** The file carried by the upload form. */
  datatype UploadedFile = UploadedFile(name: string, size: nat)

  /** An HTTP request reaching the upload view: any method other than POST
      (the view's `else` branch), or a POST with whether the form validated
      and the file it carried. */
  datatype Request = NotPost | Post(formValid: bool, file: UploadedFile)

  datatype Response =
      /** the upload page again, with an error message or none */
    | RenderUploadForm(error: Option<string>)
      /** a redirect to the dataset list, with a success message */
    | RedirectToDatasetList(message: string)

  /** The registry after the request, the response, and the name the view asked
      storage to save the file under, if it saved one. */
  datatype UploadOutcome = UploadOutcome(registry: seq<Dataset>, response: Response, savedAs: Option<string>)

  const ValidExtensions: seq<string> := [".csv", ".xls", ".xlsx"]
  const UnsupportedFormat := "Format non supporté. Utilisez CSV, XLS ou XLSX."

  /** The extension test of the view: `any(name.lower().endswith(ext) ...)`. */
  function HasValidExtension(name: string): (b: bool)
    ensures b <==> EndsWith(Lower(name), ".csv") || EndsWith(Lower(name), ".xls") || EndsWith(Lower(name), ".xlsx")
    ensures EndsWith(name, ".csv") || EndsWith(name, ".xls") || EndsWith(name, ".xlsx") ==> b
  {
    ValidExtensionCases(name);
    exists i :: 0 <= i < |ValidExtensions| && EndsWith(Lower(name), ValidExtensions[i])
  }

  /** The three cases of the extension test, and the case-sensitive suffixes
      it accepts. */
  lemma ValidExtensionCases(name: string)
    ensures (exists i :: 0 <= i < |ValidExtensions| && EndsWith(Lower(name), ValidExtensions[i])) <==>
              EndsWith(Lower(name), ".csv") || EndsWith(Lower(name), ".xls") || EndsWith(Lower(name), ".xlsx")
    ensures EndsWith(name, ".csv") ==> EndsWith(Lower(name), ".csv")
    ensures EndsWith(name, ".xls") ==> EndsWith(Lower(name), ".xls")
    ensures EndsWith(name, ".xlsx") ==> EndsWith(Lower(name), ".xlsx")
  {
    var lower := Lower(name);
    assert ValidExtensions == [".csv", ".xls", ".xlsx"];
    if EndsWith(lower, ".csv") { assert EndsWith(lower, ValidExtensions[0]); }
    if EndsWith(lower, ".xls") { assert EndsWith(lower, ValidExtensions[1]); }
    if EndsWith(lower, ".xlsx") { assert EndsWith(lower, ValidExtensions[2]); }
    SuffixSurvivesLower(name, ".csv");
    SuffixSurvivesLower(name, ".xls");
    SuffixSurvivesLower(name, ".xlsx");
  }

  /** One of the accepted suffixes, written exactly, survives lower-casing. */
  lemma SuffixSurvivesLower(name: string, ext: string)
    requires ext in ValidExtensions
    ensures EndsWith(name, ext) ==> EndsWith(Lower(name), ext)
  {
    if EndsWith(name, ext) {
      EndsWithLower(name, ext);
    }
  }

  /** The extension test ignores case. */
  lemma ExtensionTestIgnoresCase(name: string)
    ensures HasValidExtension(name) <==> HasValidExtension(Lower(name))
  {
    LowerIdempotent(name);
  }

  /** `upload_dataset`. `store` is `default_storage.save`: it maps the requested
      name to the name actually stored; `now` is `timezone.now()`. */
  function UploadDataset(registry: seq<Dataset>, req: Request, store: string -> string, now: int): (r: UploadOutcome)
    ensures r.registry == registry <==> !(req.Post? && req.formValid && HasValidExtension(req.file.name))
    ensures r.registry != registry ==>
              && |r.registry| == |registry| + 1
              && r.registry[..|registry|] == registry
              && r.registry[|registry|] == NewDataset(req.file.name, store("datasets/" + req.file.name), req.file.size, now)
    ensures r.savedAs.Some? <==> r.registry != registry
    ensures r.savedAs.Some? ==> r.savedAs.value == "datasets/" + req.file.name
    ensures r.response.RedirectToDatasetList? <==> r.registry != registry
    ensures r.response == RenderUploadForm(Some(UnsupportedFormat)) <==>
              req.Post? && req.formValid && !HasValidExtension(req.file.name)
    ensures !(req.Post? && req.formValid) ==> r.response == RenderUploadForm(None)
    ensures r.registry != registry ==>
              r.response == RedirectToDatasetList("Fichier " + req.file.name + " uploadé avec succès!")
  {
    match req
    case NotPost => UploadOutcome(registry, RenderUploadForm(None), None)
    case Post(valid, file) =>
      if !valid then UploadOutcome(registry, RenderUploadForm(None), None)
      else if !HasValidExtension(file.name) then UploadOutcome(registry, RenderUploadForm(Some(UnsupportedFormat)), None)
      else
        var requested := "datasets/" + file.name;
        var d := NewDataset(file.name, store(requested), file.size, now);
        assert (registry + [d])[..|registry|] == registry;
        UploadOutcome(registry + [d], RedirectToDatasetList("Fichier " + file.name + " uploadé avec succès!"), Some(requested))
  }

  /** Every path the loader can parse passes the upload check, but not the other
      way round: an upper-case `.CSV` is accepted, stored, and then selects no
      parser, so its analyzer has no frame and both classification and the basic
      summary fail. */
  lemma UploadCheckIsLaxerThanLoader<V>(read: DataAnalyzer.Parser -> Result<DataAnalyzer.Table<V>, string>)
    ensures forall path :: DataAnalyzer.SelectParser(path).Some? ==> HasValidExtension(path)
    ensures HasValidExtension("datasets/X.CSV")
    ensures DataAnalyzer.SelectParser("datasets/X.CSV") == None
    ensures DataAnalyzer.Load("datasets/X.CSV", read).Success?
    ensures DataAnalyzer.AnalyzerDetect(DataAnalyzer.Load("datasets/X.CSV", read).value) == Failure(DataAnalyzer.NoFrame)
    ensures DataAnalyzer.AnalyzerBasicInfo(DataAnalyzer.Load("datasets/X.CSV", read).value) == Failure(DataAnalyzer.NoFrame)
  {
    forall path | DataAnalyzer.SelectParser(path).Some?
      ensures HasValidExtension(path)
    {
      var i := if EndsWith(path, ".csv") then 0 else if EndsWith(path, ".xls") then 1 else 2;
      EndsWithLower(path, ValidExtensions[i]);
    }
    assert EndsWith(Lower("datasets/X.CSV"), ValidExtensions[0]);
    DataAnalyzer.UpperCaseSuffixLoadsNothing(read);
  }

  // ----------------------------------------------------------- dataset list

  /** Newest first: upload dates never increase along the list. */
  predicate NewestFirst(s: seq<Dataset>) {
    forall i, j :: 0 <= i < j < |s| ==> s[i].uploadDate >= s[j].uploadDate
  }

  /** Inserts `d` before the first dataset that is not newer than it. */
  function InsertNewestFirst(d: Dataset, s: seq<Dataset>): (r: seq<Dataset>)
    requires NewestFirst(s)
    ensures NewestFirst(r)
    ensures multiset(r) == multiset(s) + multiset{d}
    ensures r[0] == d || r[0] == s[0]
  {
    if |s| == 0 then [d]
    else if d.uploadDate >= s[0].uploadDate then [d] + s
    else
      var rest := InsertNewestFirst(d, s[1..]);
      assert s == [s[0]] + s[1..];
      [s[0]] + rest
  }

  /** `Dataset.objects.all().order_by('-upload_date')`. The database leaves the
      order of equal dates open; this model keeps registry order for them. */
  function DatasetList(registry: seq<Dataset>): (r: seq<Dataset>)
    ensures NewestFirst(r)
    ensures multiset(r) == multiset(registry)
  {
    if |registry| == 0 then []
    else
      assert registry == [registry[0]] + registry[1..];
      InsertNewestFirst(registry[0], DatasetList(registry[1..]))
  }

  /** An upload made later than every registered one heads the list. */
  lemma {:induction false} NewestUploadListedFirst(registry: seq<Dataset>, file: UploadedFile, store: string -> string, now: int)
    requires HasValidExtension(file.name)
    requires forall i :: 0 <= i < |registry| ==> registry[i].uploadDate < now
    ensures var after := UploadDataset(registry, Post(true, file), store, now).registry;
            DatasetList(after)[0] == after[|registry|]
  {
    var after := UploadDataset(registry, Post(true, file), store, now).registry;
    var d := after[|registry|];
    var list := DatasetList(after);
    assert after == registry + [d];
    assert d in multiset(after);
    assert d in multiset(list);
    var k :| 0 <= k < |list| && list[k] == d;
    assert list[0] in multiset(after);
  }
}

=== FILE: wrappers.dfy ===
/** Failure-compatible wrappers shared by the whole model. */
module Wrappers {

  /** A value that may be absent: Python's `None`, a nullable database column. */
  datatype Option<+T> = None | Some(value: T)

  /** The outcome of an operation that may raise: `Success` carries the value,
      `Failure` the exception that escaped. */
  datatype Result<+R, +E> = Success(value: R) | Failure(error: E) {

    predicate IsFailure() {
      Failure?
    }

    function PropagateFailure<U>(): Result<U, E>
      requires Failure?
    {
      Failure(error)
    }

    function Extract(): R
      requires Success?
    {
      value
    }
  }
}
